=== FILE: README.md ===
# Bus ETA dashboard: ETA normalisation and transfer matching

This project models the engine behind a Hong Kong bus dashboard. The engine
polls live ETA feeds for a set of routes. For each configured route pair it
lists the arrival combinations that leave time to get off route 1, walk the
configured transfer time, and board route 2.

The engine exists twice in the repository. Both copies are modelled, each in
its own module:

- `main.py` (module `Dashboard`): `get_upcoming_etas` and
  `build_route_comparison_table`;
- `main-static.py` (module `StaticTable`): `get_upcoming_etas` and
  `build_table`.

The two copies share most of their logic. That shared logic is modelled once:

- `Feed`: reads each endpoint's response items. It keeps items whose `route`
  matches exactly and whose `eta` is non-empty. It replaces `Z` by `+00:00`
  and parses the timestamp. It keeps arrivals strictly after `now` and
  computes the remaining minutes, rounded down.
- `Transfer`: builds the cross-product of the two routes' arrival lists. It
  keeps a row when `etr2 - transfer - etr1 >= 0`, raises on routes that are
  not keys of `route_api`, and removes the internal sort key `_eta2_dt`.
- `Clock`: handles time. Instants are integer microseconds since the epoch.
  Arrival times are shown as UTC+8 `HH:MM:SS`. Remaining minutes are the
  floor of the elapsed time divided by one minute.
- `Sorting`: a stable sort by an integer key, matching Python's `sort`.
- `Variants`: states where the two copies agree and where they differ.

The copies differ in two places:

- Cap test. `main.py:87` tests the cap by truthiness, so a cap of 0 returns
  everything. `main-static.py:54` tests `is not None`, so a cap of 0 returns
  nothing.
- Sort key. `main.py:123` sorts by `(route-2 instant, route-1 clock text)`.
  `main-static.py:108` sorts by the route-2 instant alone and relies on the
  sort being stable.

The tie-break in `main.py` compares clock texts as strings. `Clock.ClockTextOrder`
proves that zero-padded `HH:MM:SS` texts compare as strings exactly as their
seconds of the day compare as numbers. The table's integer sort key uses that
fact, and `Dashboard.SortedTableIsPythonSort` proves that the resulting order
is the order Python's tuple-keyed stable sort produces.

Injected parameters and oracles:

- `now`: the current instant.
- `fetch`: maps a URL to `Failed` or `Ok(items)`. This stands for
  `requests.get`, `raise_for_status` and JSON decoding.
- `parse`: maps a timestamp text to an optional instant. This stands for
  `datetime.fromisoformat` followed by `astimezone(HKT)`.

Two behaviours of the code are easy to miss:

- A response item that is not a JSON object makes `item.get` raise inside the
  endpoint's outer `try`. The rest of that response is abandoned, but the
  entries already taken from it stay in the result.
- The code fetches each route once per pair that names it, not once per
  distinct route.

## Model

| member | source | states |
|---|---|---|
| Clock.LocalSecondOfDay | main.py:75-80 | the second of the day shown by `%H:%M:%S` on a UTC+8 clock lies within one day |
| Clock.LocalClockReading | main.py:75-80 | an instant that falls `s` whole seconds into some UTC+8 day is shown as second `s` of the day; fractions of a second are dropped |
| Clock.RemainingMinutes | main.py:81 | remaining minutes `m` satisfy `m` minutes <= `t - now` < `m + 1` minutes (floor, not rounding), and are non-negative for a future arrival |
| Clock.RemainingMinutesMonotone | main.py:81 | a later arrival never shows fewer remaining minutes |
| Clock.ClockText | main.py:80 | the `%H:%M:%S` text is 8 characters: two decimal digits for the hour, a colon, two for the minute within the hour, a colon, two for the second within the minute, each pair zero-padded and equal in value to that field |
| Clock.ClockRoundTrip | main.py:80 | reading a rendered `HH:MM:SS` text back gives the second of the day it renders |
| Clock.ClockTextOrder | main.py:123 | zero-padded clock texts compare as strings exactly as their seconds of the day compare as numbers, which is what the string tie-break relies on |
| Feed.ReplaceZ | main.py:74 | `replace("Z", "+00:00")` turns a lone `Z` into `+00:00` and keeps any other single character; afterwards no `Z` remains, a text without `Z` is unchanged, and each `Z` adds five characters |
| Feed.ReplaceZConcat | main.py:74 | the replacement is applied piece by piece: replacing in a concatenation concatenates the replacements, so with the single-character case it fixes the whole result |
| Feed.MakeEntry | main.py:79-82 | an entry built for an arrival after `now` keeps the instant, is strictly after `now`, shows the floored remaining minutes and the UTC+8 clock text |
| Feed.ItemEntry | main.py:71-82 | an item yields an entry if and only if its route equals the requested route exactly, its `eta` is a non-empty string, the timestamp parses after the `Z` replacement, and the instant is after `now` |
| Feed.LeadingRecords | main.py:70 | counts the items before the first non-object item, on which `item.get` raises |
| Feed.ItemsEntries | main.py:70-84 | every entry taken from a response is a valid upcoming entry; there are at most as many entries as items |
| Feed.ItemsEntriesMembership | main.py:70-84 | an entry comes from a response if and only if an item before the first non-object item yields it |
| Feed.ItemsEntriesSplit | main.py:70-84 | object items are processed one at a time and their entries are concatenated; a non-object item cuts the rest of the response but keeps the entries already taken |
| Feed.RejectedItemSkipped | main.py:71-77 | an item with the wrong route, an empty `eta` or an unparsable `eta` is skipped on its own; the items around it contribute as if it were absent |
| Feed.EndpointEntries | main.py:64-68 | a failed endpoint (transport error, bad status, unparsable body) contributes no entries |
| Feed.CollectEntries | main.py:64-84 | every entry collected over all endpoints is strictly after `now`, shows floored minutes and the UTC+8 clock text |
| Feed.CollectEntriesSingle | main.py:64-84 | one endpoint contributes exactly the entries its response yields, once each and in item order; with `CollectEntriesConcat` the collected list is fixed endpoint by endpoint |
| Feed.CollectEntriesMembership | main.py:64-84 | an arrival is collected if and only if some endpoint of the route answered and an item of its response yields that arrival |
| Feed.CollectEntriesConcat | main.py:64 | endpoints are independent: the entries of two URL lists are each list's entries in URL order |
| Feed.FailedEndpointSkipped | main.py:83-84 | a failing endpoint removes nothing contributed by the other endpoints |
| Feed.PyPrefix | main.py:87 | Python slicing `s[:n]` keeps `min(n, len)` elements for `n >= 0` and drops `-n` from the end for negative `n`, always as a prefix |
| Feed.CappedPrefix | main.py:86-87 | a prefix of the sorted entries is sorted and takes entries only from those collected |
| Feed.PrefixKeepsSoonest | main.py:86-87 | the cap keeps the soonest: every collected entry that was cut off arrives no earlier than every kept entry |
| Feed.PrefixStable | main.py:86 | entries sharing an instant stay in collection order (endpoint, then item); truncation keeps a leading part of each such group |
| Sorting.SortBy | main.py:86 | the sort yields an ascending arrangement of exactly the input elements |
| Sorting.SortByStable | main.py:86 | the sort is stable: elements with equal keys keep their input order |
| Sorting.StableSortUnique | main-static.py:108 | two ascending sequences that list every equal-key group identically are equal, so a stable sort's result is fully determined |
| Sorting.SortedPrefix | main.py:87 | a prefix of a sorted list is sorted, its keys are no larger than any key after it, and prefix plus rest is the whole list |
| Sorting.SortedPrefixLeast | main.py:87 | what a sorted prefix leaves out has keys no smaller than any key it keeps |
| Sorting.KeyFilterPrefix | main.py:87 | truncating a list keeps a leading part of every equal-key group |
| Transfer.SlackMeaning | main.py:108-109 | because both minute counts are floored, the real gap between the arrivals minus the transfer time is within one minute of the slack in either direction |
| Transfer.RowsFor | main.py:107-120 | the inner loop yields at most one row per route-2 arrival, each with slack >= 0 |
| Transfer.PairRows | main.py:106-120 | a pair yields at most `|ups1| * |ups2|` rows, each with slack >= 0 |
| Transfer.CombosFrom | main.py:106-109 | enumerates the feasible index combinations, strictly increasing, holding exactly the in-range combinations whose slack is >= 0 |
| Transfer.PairRowsEnumerate | main.py:106-120 | cross-product completeness: a pair's rows are one row per feasible (route-1 arrival, route-2 arrival) combination, by route-1 then route-2 order; no infeasible combination and none twice |
| Transfer.PairRowsComplete | main.py:106-120 | every feasible combination of a fetched route-1 arrival and a fetched route-2 arrival appears among the pair's rows |
| Transfer.PairRowsSound | main.py:106-120 | every row of a pair is built from one feasible combination of the two arrival lists and copies their fields |
| Transfer.CombineRows | main.py:101-104 | the table raises if and only if some pair names a route that is not a key of `route_api` (a route mapped to an empty URL list does not raise); the error names the first such lookup (route 1 before route 2); every row has slack >= 0 |
| Transfer.CombineRowsConcat | main.py:102-120 | pairs are independent: the table of two pair lists is each list's rows in pair order, and it fails exactly when either fails |
| Transfer.CombineRowsSingle | main.py:102-120 | a configured pair adds exactly its own rows to the table, once each and in route-1 then route-2 order; with `CombineRowsConcat` the table is fixed pair by pair |
| Transfer.CombineRowsFromPairs | main.py:102-120 | every table row belongs to the rows of some configured pair |
| Transfer.CombineRowsComplete | main.py:102-120 | cross-product completeness for the whole table: when the table is built, every feasible combination of two fetched arrivals of any configured pair is one of its rows |
| Transfer.CombineRowsCongruent | main.py:103-104 | the table depends only on what the fetcher returns |
| Transfer.StripTable | main.py:122-124 | a built table loses only `_eta2_dt`: a lookup error passes through unchanged, otherwise the rows keep count, order and every other field, and non-negative slacks stay non-negative |
| Transfer.Strip | main.py:124 | dropping `_eta2_dt` loses nothing else: putting the key back restores the row |
| Transfer.StripAll | main.py:124 | stripping keeps the row count and order and every other field |
| Dashboard.UpcomingEtas | main.py:49-87 | result entries are valid upcoming entries, ascending by instant, drawn from the collected ones; cap None or 0 keeps all of them, a positive cap N keeps `min(N, retained)`, a negative cap drops from the end |
| Dashboard.UpcomingEtasSoonest | main.py:86-87 | with any cap, every retained entry that was cut off arrives no earlier than any returned entry |
| Dashboard.UpcomingEtasStable | main.py:86-87 | ties keep endpoint order, then item order; with cap None or 0 every group of ties is returned whole |
| Dashboard.PairRowsBounded | main.py:103-104 | with `MAX_RESULTS = 5` each pair contributes at most 25 rows |
| Dashboard.TableRowOrigin | main.py:103-120 | every row comes from a configured pair and two fetched upcoming arrivals with non-negative slack |
| Dashboard.TableRowsClockText | main.py:112 | every row's route-1 ETA text is a well-formed `HH:MM:SS` text |
| Dashboard.TableKeyOrder | main.py:123 | on well-formed clock texts, the integer key orders rows exactly as the tuple `(_eta2_dt, ETA text)` does, and ties exactly when both components tie |
| Dashboard.KeySortIsTupleSort | main.py:123 | rows with well-formed clock texts sorted by the integer key are ascending in Python's tuple order |
| Dashboard.SortedTable | main.py:123 | the sorted table fails exactly when the unsorted one does, holds the same rows, and is ascending by (route-2 instant, route-1 clock string) |
| Dashboard.SortedTableIsPythonSort | main.py:123 | any arrangement that is ascending in tuple order and keeps tied rows in insertion order is exactly the model's sorted table |
| Dashboard.BuildRouteComparisonTable | main.py:90-124 | fails exactly when a pair names a route that is not a key of `route_api`, with the first missing key; otherwise returns the sorted rows minus `_eta2_dt`, same count and order, all other fields unchanged, every slack >= 0 |
| StaticTable.UpcomingEtas | main-static.py:23-56 | result entries are valid upcoming entries, ascending by instant, drawn from the collected ones; no cap keeps all, a cap N >= 0 keeps `min(N, retained)` (0 keeps none) |
| StaticTable.UpcomingEtasSoonest | main-static.py:53-56 | with any cap, every retained entry that was cut off arrives no earlier than any returned entry |
| StaticTable.UpcomingEtasStable | main-static.py:53-55 | ties keep endpoint order, then item order; without a cap every group of ties is returned whole |
| StaticTable.PairRowsBounded | main-static.py:88-93 | with `max_results=5` each pair contributes at most 25 rows |
| StaticTable.SortedTable | main-static.py:108 | the sorted table fails exactly when the unsorted one does, holds the same rows, and is ascending by route-2 instant |
| StaticTable.SortedTableStable | main-static.py:92-108 | rows sharing a route-2 instant keep insertion order: pair order, then route-1 arrival, then route-2 arrival |
| StaticTable.BuildTable | main-static.py:84-116 | fails exactly when a pair names a route that is not a key of `route_api`, with the first missing key; otherwise returns copies of the sorted rows without `_eta2_dt`, same count and order, every slack >= 0 |
| Variants.CapZeroDiverges | main-static.py:54-55 | with a cap of 0, `main.py` returns every upcoming arrival while `main-static.py` returns none |
| Variants.FetchersAgree | main-static.py:53-56 | for no cap or any non-zero cap the two fetchers return the same list |
| Variants.TablesAgreeUpToOrder | main-static.py:108 | both variants fail alike and otherwise hold the same rows; both are ascending by route-2 instant and can differ only in the order of rows sharing that instant |

## Left out

- The Streamlit page and refresh loop (`main.py:127-203`, `main-static.py:60-63` and `119-123`) are left out. They cover rendering, `st.session_state`, the update counter, the countdown from `time.time()`, `time.sleep` and `st.rerun`. This is presentation and driver plumbing.
- HTTP requests, timeouts and JSON decoding are left out. They become the `fetch` parameter, which yields `Failed` or `Ok(items)`. A missing `data` member is `Ok([])`. A JSON body that is not an object (a top-level list or `null`, on which `data.get` raises inside the outer `try`, main.py:70) is `Failed`, and so is a `data` member that is not a list.
- `datetime.fromisoformat` and `astimezone(HKT)` are abstracted into the `parse` parameter. The library parser is not visible here. Naive timestamps, which take the machine's local zone, and out-of-range dates, which raise, are both part of that parameter.
- An `eta` that is a non-string value is modelled as absent. If it is falsy, the filter drops it. If it is truthy, `.replace` raises inside the inner `try` and only that item is skipped. Both paths skip the item.
- `datetime.now` is not modelled; `now` is an integer parameter. The source reads the clock and the network again on each `get_upcoming_etas` call, which is twice per pair. The model takes one `now` and one `fetch` snapshot per table.
- Clock.RemainingMinutes: computes the floor on exact integer microseconds. The source floor-divides a float from `total_seconds()`. The two agree unless the duration exceeds about 2^53 microseconds (about 285 years).
- The `or datetime.max` and `or ""` fallbacks in the sort keys (`main.py:123`, `main-static.py:108`) are left out. `_eta2_dt` and the ETA text are always set when a row is built, so the fallbacks never run.
- The `ROUTE_API` and `ROUTE_PAIRS` constants are configuration. They become the `api` and `pairs` parameters.
- `UPDATE_INTERVAL` (`main.py:13`) is left out. Only the refresh loop uses it (`main.py:141`, `146`), and that loop is not modelled.
- `city_bus_stop_id_scraping/city_bus_stop_id.py` is not part of this model. It is a separate network-and-CSV batch script that shares no logic with the engine.
- Dashboard.BuildRouteComparisonTable: the output rows no longer carry the route-2 instant, so their ordering is stated on `Dashboard.SortedTable`. The function's contract links each output row to that table row by row.

=== FILE: clock.dfy ===
/** Integer time. Instants are microseconds since the Unix epoch (the
    resolution of a Python `datetime`); the dashboard shows them as wall-clock
    time in the fixed UTC+8 zone, and counts whole minutes remaining. */
module Clock {

  const MicrosPerSecond: int := 1_000_000
  const SecondsPerMinute: int := 60
  const MicrosPerMinute: int := SecondsPerMinute * MicrosPerSecond
  const SecondsPerHour: int := 3600
  const SecondsPerDay: int := 86_400
  /** Hong Kong Time: UTC+8, no daylight saving. */
  const HktOffsetSeconds: int := 8 * SecondsPerHour

  /** The second of the day shown on a UTC+8 clock at instant `t`; fractions
      of a second are dropped, as `%H:%M:%S` drops microseconds. */
  function LocalSecondOfDay(t: int): (s: int)
    ensures 0 <= s < SecondsPerDay
  {
    (t / MicrosPerSecond + HktOffsetSeconds) % SecondsPerDay
  }

  /** Reading a UTC+8 wall clock: if shifting `t` by eight hours lands `s`
      whole seconds (plus a fraction of a second) into some day, then `s` is
      the second of the day the clock shows. */
  lemma LocalClockReading(t: int, day: int, s: int, micros: int)
    requires 0 <= s < SecondsPerDay && 0 <= micros < MicrosPerSecond
    requires t + HktOffsetSeconds * MicrosPerSecond == (day * SecondsPerDay + s) * MicrosPerSecond + micros
    ensures LocalSecondOfDay(t) == s
  {
    var secs := day * SecondsPerDay + s - HktOffsetSeconds;
    assert t == secs * MicrosPerSecond + micros;
    assert t / MicrosPerSecond == secs;
    assert (secs + HktOffsetSeconds) % SecondsPerDay == s;
  }

  /** Whole minutes from `now` until `t`, rounded down: the floor of the
      elapsed seconds divided by 60. */
  function RemainingMinutes(t: int, now: int): (m: int)
    ensures m * MicrosPerMinute <= t - now < (m + 1) * MicrosPerMinute
    ensures t > now ==> m >= 0
  {
    (t - now) / MicrosPerMinute
  }

  /** A later arrival never shows fewer remaining minutes. */
  lemma RemainingMinutesMonotone(t1: int, t2: int, now: int)
    requires t1 <= t2
    ensures RemainingMinutes(t1, now) <= RemainingMinutes(t2, now)
  {
    var m1, m2 := RemainingMinutes(t1, now), RemainingMinutes(t2, now);
    assert m1 * MicrosPerMinute <= t1 - now && t2 - now < (m2 + 1) * MicrosPerMinute;
  }

  function Digit(d: int): char
    requires 0 <= d <= 9
  {
    ('0' as int + d) as char
  }

  function DigitValue(c: char): int
  {
    c as int - '0' as int
  }

  /** A number below 100 as two zero-padded decimal digits. */
  function Pad2(n: int): string
    requires 0 <= n < 100
  {
    [Digit(n / 10), Digit(n % 10)]
  }

  /** The `%H:%M:%S` rendering of a second of the day. */
  function ClockText(s: int): (r: string)
    requires 0 <= s < SecondsPerDay
    ensures |r| == 8 && r[2] == ':' && r[5] == ':'
    ensures forall i :: i in {0, 1, 3, 4, 6, 7} ==> '0' <= r[i] <= '9'
    ensures DigitValue(r[0]) * 10 + DigitValue(r[1]) == s / SecondsPerHour
    ensures DigitValue(r[3]) * 10 + DigitValue(r[4]) == s % SecondsPerHour / SecondsPerMinute
    ensures DigitValue(r[6]) * 10 + DigitValue(r[7]) == s % SecondsPerMinute
  {
    var h, rest := s / SecondsPerHour, s % SecondsPerHour;
    var r := Pad2(h) + ":" + Pad2(rest / SecondsPerMinute) + ":" + Pad2(rest % SecondsPerMinute);
    assert rest % SecondsPerMinute == s % SecondsPerMinute;
    r
  }

  /** Reads an `HH:MM:SS` text back as a second of the day. */
  function ClockSeconds(r: string): int
  {
    if |r| != 8 then 0
    else
      (DigitValue(r[0]) * 10 + DigitValue(r[1])) * SecondsPerHour
      + (DigitValue(r[3]) * 10 + DigitValue(r[4])) * SecondsPerMinute
      + DigitValue(r[6]) * 10 + DigitValue(r[7])
  }

  /** Reading a rendered clock gives back the second of the day it shows. */
  lemma ClockRoundTrip(s: int)
    requires 0 <= s < SecondsPerDay
    ensures ClockSeconds(ClockText(s)) == s
  {
    var h, rest := s / SecondsPerHour, s % SecondsPerHour;
    var m, sec := rest / SecondsPerMinute, rest % SecondsPerMinute;
    var r := ClockText(s);
    assert r == Pad2(h) + ":" + Pad2(m) + ":" + Pad2(sec);
    assert DigitValue(r[0]) * 10 + DigitValue(r[1]) == h;
    assert DigitValue(r[3]) * 10 + DigitValue(r[4]) == m;
    assert DigitValue(r[6]) * 10 + DigitValue(r[7]) == sec;
  }

  /** Text that is exactly the rendering of some second of the day. */
  predicate IsClockText(r: string)
  {
    0 <= ClockSeconds(r) < SecondsPerDay && ClockText(ClockSeconds(r)) == r
  }

  lemma ClockTextIsClockText(s: int)
    requires 0 <= s < SecondsPerDay
    ensures IsClockText(ClockText(s))
  {
    ClockRoundTrip(s);
  }

  /** Python's `<` on strings: lexicographic by code point, a proper prefix
      being smaller. */
  predicate LexLess(a: string, b: string)
  {
    if |a| == 0 then |b| > 0
    else if |b| == 0 then false
    else if a[0] != b[0] then a[0] < b[0]
    else LexLess(a[1..], b[1..])
  }

  /** Comparing two concatenations whose first parts have equal length
      compares the first parts, and the second parts only on a tie. */
  lemma {:induction false} LexLessConcat(p: string, q: string, p2: string, q2: string)
    requires |p| == |p2|
    ensures LexLess(p + q, p2 + q2) == (LexLess(p, p2) || (p == p2 && LexLess(q, q2)))
  {
    if |p| == 0 {
      assert p + q == q && p2 + q2 == q2;
    } else {
      assert (p + q)[0] == p[0] && (p2 + q2)[0] == p2[0];
      assert (p + q)[1..] == p[1..] + q && (p2 + q2)[1..] == p2[1..] + q2;
      if p[0] == p2[0] {
        LexLessConcat(p[1..], q, p2[1..], q2);
        assert p == p2 <==> p[1..] == p2[1..] by {
          assert p == [p[0]] + p[1..] && p2 == [p2[0]] + p2[1..];
        }
      }
    }
  }

  /** Two-digit texts compare as their numbers do. */
  lemma Pad2Order(a: int, b: int)
    requires 0 <= a < 100 && 0 <= b < 100
    ensures LexLess(Pad2(a), Pad2(b)) <==> a < b
    ensures Pad2(a) == Pad2(b) <==> a == b
  {
    var pa, pb := Pad2(a), Pad2(b);
    assert pa[0] as int == '0' as int + a / 10 && pa[1] as int == '0' as int + a % 10;
    assert pb[0] as int == '0' as int + b / 10 && pb[1] as int == '0' as int + b % 10;
    assert pa[1..] == [pa[1]] && pb[1..] == [pb[1]];
    assert pa[1..][1..] == [] && pb[1..][1..] == [];
    assert LexLess(pa[1..], pb[1..]) <==> pa[1] < pb[1];
    if pa == pb {
      assert pa[0] == pb[0] && pa[1] == pb[1];
    }
  }

  /** The property the dashboard's tie-break relies on: zero-padded
      `HH:MM:SS` texts compare as strings exactly as their seconds of the day
      compare as numbers. */
  lemma ClockTextOrder(x: int, y: int)
    requires 0 <= x < SecondsPerDay && 0 <= y < SecondsPerDay
    ensures LexLess(ClockText(x), ClockText(y)) <==> x < y
  {
    var hx, rx := x / SecondsPerHour, x % SecondsPerHour;
    var hy, ry := y / SecondsPerHour, y % SecondsPerHour;
    var mx, sx := rx / SecondsPerMinute, rx % SecondsPerMinute;
    var my, sy := ry / SecondsPerMinute, ry % SecondsPerMinute;
    var ux, uy := ":" + Pad2(sx), ":" + Pad2(sy);
    var vx, vy := Pad2(mx) + ux, Pad2(my) + uy;
    var tx, ty := ":" + vx, ":" + vy;
    assert ClockText(x) == Pad2(hx) + tx;
    assert ClockText(y) == Pad2(hy) + ty;
    assert !LexLess(":", ":");
    LexLessConcat(":", Pad2(sx), ":", Pad2(sy));
    assert LexLess(ux, uy) == LexLess(Pad2(sx), Pad2(sy));
    LexLessConcat(Pad2(mx), ux, Pad2(my), uy);
    LexLessConcat(":", vx, ":", vy);
    assert LexLess(tx, ty) == LexLess(vx, vy);
    LexLessConcat(Pad2(hx), tx, Pad2(hy), ty);
    Pad2Order(hx, hy);
    Pad2Order(mx, my);
    Pad2Order(sx, sy);
    ClockFieldsOrder(x, y);
  }

  /** Seconds of the day compare as their (hour, minute, second) fields do,
      most significant field first. */
  lemma ClockFieldsOrder(x: int, y: int)
    requires 0 <= x < SecondsPerDay && 0 <= y < SecondsPerDay
    ensures var hx, rx := x / SecondsPerHour, x % SecondsPerHour;
      var hy, ry := y / SecondsPerHour, y % SecondsPerHour;
      x < y <==>
        hx < hy || (hx == hy && (rx / SecondsPerMinute < ry / SecondsPerMinute
          || (rx / SecondsPerMinute == ry / SecondsPerMinute && rx % SecondsPerMinute < ry % SecondsPerMinute)))
  {
    var hx, rx := x / SecondsPerHour, x % SecondsPerHour;
    var hy, ry := y / SecondsPerHour, y % SecondsPerHour;
    assert x == hx * SecondsPerHour + rx && y == hy * SecondsPerHour + ry;
    assert rx == rx / SecondsPerMinute * SecondsPerMinute + rx % SecondsPerMinute;
    assert ry == ry / SecondsPerMinute * SecondsPerMinute + ry % SecondsPerMinute;
  }
}

=== FILE: common.dfy ===
/** Small failure-carrying datatypes shared by the whole model. */
module Common {

  /** A value that may be absent: a missing JSON field, an unparsable timestamp,
      an unset result cap. */
  datatype Option<T> = None | Some(value: T)

  /** The outcome of an operation that can raise. */
  datatype Result<T, E> = Success(value: T) | Failure(error: E)

  /** Turns an optional value into a sequence of zero or one elements. */
  function OptionToSeq<T>(o: Option<T>): (r: seq<T>)
    ensures |r| <= 1
    ensures o.Some? <==> |r| == 1
    ensures o.Some? ==> r[0] == o.value
  {
    match o
    case None => []
    case Some(v) => [v]
  }

  function Min(a: int, b: int): int { if a <= b then a else b }

  function Max(a: int, b: int): int { if a <= b then b else a }

  /** Splitting a concatenation at its first element. */
  lemma ConcatCons<T>(a: seq<T>, b: seq<T>)
    requires |a| > 0
    ensures (a + b)[0] == a[0] && (a + b)[1..] == a[1..] + b
  {
  }

  lemma ConcatEmpty<T>(a: seq<T>, b: seq<T>)
    requires |a| == 0
    ensures a + b == b
  {
  }

  lemma TakeAll<T>(s: seq<T>)
    ensures s[..|s|] == s
  {
  }

  lemma ConcatAssoc<T>(a: seq<T>, b: seq<T>, c: seq<T>)
    ensures a + (b + c) == (a + b) + c
  {
  }
}

=== FILE: dashboard.dfy ===
/** The live dashboard (`main.py`): its `get_upcoming_etas`, which caps the
    result by truthiness, and `build_route_comparison_table`, which orders
    rows by route-2 arrival and then by the route-1 clock text. */
module Dashboard {
  import opened Common
  import opened Clock
  import opened Sorting
  import opened Feed
  import opened Transfer

  /** How many arrivals per route the table considers. */
  const MaxResults: int := 5

  /** The upcoming arrivals of `route` from its endpoints: every valid entry,
      soonest first, then `etas[:max_results] if max_results else etas`, so
      a missing cap and a cap of 0 both keep everything. */
  function UpcomingEtas(route: string, urls: seq<string>, fetch: Fetch, parse: Parser, now: int, maxResults: Option<int>): (r: seq<Entry>)
    ensures forall e :: e in r ==> ValidEntry(e, now)
    ensures SortedBy(r, InstantOf)
    ensures multiset(r) <= multiset(CollectEntries(route, urls, fetch, parse, now))
    ensures maxResults.None? || maxResults == Some(0) ==>
      multiset(r) == multiset(CollectEntries(route, urls, fetch, parse, now))
    ensures maxResults.Some? && maxResults.value > 0 ==>
      |r| == Min(maxResults.value, |CollectEntries(route, urls, fetch, parse, now)|)
    ensures maxResults.Some? && maxResults.value < 0 ==>
      |r| == Max(0, |CollectEntries(route, urls, fetch, parse, now)| + maxResults.value)
  {
    var all := CollectEntries(route, urls, fetch, parse, now);
    var sorted := SortBy(all, InstantOf);
    var r := if maxResults.None? || maxResults.value == 0 then sorted else PyPrefix(sorted, maxResults.value);
    CappedPrefix(all, sorted, r, now);
    r
  }

  /** The cap keeps the soonest arrivals: every retained entry that was cut
      off arrives no earlier than any entry that was kept. */
  lemma UpcomingEtasSoonest(route: string, urls: seq<string>, fetch: Fetch, parse: Parser, now: int, maxResults: Option<int>)
    ensures var all := CollectEntries(route, urls, fetch, parse, now);
      var r := UpcomingEtas(route, urls, fetch, parse, now, maxResults);
      forall e, x :: e in multiset(all) - multiset(r) && x in r ==> x.instant <= e.instant
  {
    var all := CollectEntries(route, urls, fetch, parse, now);
    var r := UpcomingEtas(route, urls, fetch, parse, now, maxResults);
    var sorted := SortBy(all, InstantOf);
    if maxResults.None? || maxResults.value == 0 {
      assert r == sorted;
      TakeAll(sorted);
    } else {
      assert r == PyPrefix(sorted, maxResults.value);
    }
    PrefixKeepsSoonest(all, r);
  }

  /** Ties keep endpoint order, then item order: the arrivals sharing an
      instant appear as they were collected (a leading part of them when the
      cap cuts the group). */
  lemma UpcomingEtasStable(route: string, urls: seq<string>, fetch: Fetch, parse: Parser, now: int, maxResults: Option<int>, k: int)
    ensures var all := CollectEntries(route, urls, fetch, parse, now);
      var r := UpcomingEtas(route, urls, fetch, parse, now, maxResults);
      && KeyFilter(r, InstantOf, k) <= KeyFilter(all, InstantOf, k)
      && (maxResults.None? || maxResults == Some(0) ==> KeyFilter(r, InstantOf, k) == KeyFilter(all, InstantOf, k))
  {
    var all := CollectEntries(route, urls, fetch, parse, now);
    var r := UpcomingEtas(route, urls, fetch, parse, now, maxResults);
    var sorted := SortBy(all, InstantOf);
    if maxResults.None? || maxResults.value == 0 {
      assert r == sorted;
      TakeAll(sorted);
    } else {
      assert r == PyPrefix(sorted, maxResults.value);
    }
    PrefixStable(all, r, k);
  }

  /** The fetcher the table uses: five arrivals per route. */
  function TableFetcher(fetch: Fetch, parse: Parser, now: int): Upcoming
  {
    (route: string, urls: seq<string>) => UpcomingEtas(route, urls, fetch, parse, now, Some(MaxResults))
  }

  /** Each pair contributes at most 5 x 5 = 25 rows. */
  lemma PairRowsBounded(p: RoutePair, api: map<string, seq<string>>, fetch: Fetch, parse: Parser, now: int)
    requires Configured(p, api)
    ensures |PairTable(p, api, TableFetcher(fetch, parse, now))| <= MaxResults * MaxResults
  {
    var a := UpcomingEtas(p.route1, api[p.route1], fetch, parse, now, Some(MaxResults));
    var b := UpcomingEtas(p.route2, api[p.route2], fetch, parse, now, Some(MaxResults));
    assert PairTable(p, api, TableFetcher(fetch, parse, now)) == PairRows(p, a, b);
    ProductBound(|a|, |b|, MaxResults);
  }

  /** Every table row is made from a configured pair and two fetched
      arrivals that leave a non-negative slack. */
  lemma TableRowOrigin(pairs: seq<RoutePair>, api: map<string, seq<string>>, fetch: Fetch, parse: Parser, now: int, row: Row)
    requires CombineRows(pairs, api, TableFetcher(fetch, parse, now)).Success?
    requires row in CombineRows(pairs, api, TableFetcher(fetch, parse, now)).value
    ensures exists k, e1, e2 ::
      && 0 <= k < |pairs| && Configured(pairs[k], api)
      && e1 in UpcomingEtas(pairs[k].route1, api[pairs[k].route1], fetch, parse, now, Some(MaxResults))
      && e2 in UpcomingEtas(pairs[k].route2, api[pairs[k].route2], fetch, parse, now, Some(MaxResults))
      && Feasible(pairs[k], e1, e2) && row == MakeRow(pairs[k], e1, e2)
  {
    var up := TableFetcher(fetch, parse, now);
    CombineRowsFromPairs(pairs, api, up, row);
    var k :| 0 <= k < |pairs| && Configured(pairs[k], api) && row in PairTable(pairs[k], api, up);
    var p := pairs[k];
    var ups1, ups2 := up(p.route1, api[p.route1]), up(p.route2, api[p.route2]);
    PairRowsSound(p, ups1, ups2, row);
    var i, j :| 0 <= i < |ups1| && 0 <= j < |ups2| && Feasible(p, ups1[i], ups2[j]) && row == MakeRow(p, ups1[i], ups2[j]);
    assert ups1[i] in ups1 && ups2[j] in ups2;
  }

  /** Every table row shows a well-formed route-1 clock text. */
  lemma TableRowsClockText(pairs: seq<RoutePair>, api: map<string, seq<string>>, fetch: Fetch, parse: Parser, now: int)
    requires CombineRows(pairs, api, TableFetcher(fetch, parse, now)).Success?
    ensures forall row :: row in CombineRows(pairs, api, TableFetcher(fetch, parse, now)).value ==> IsClockText(row.clock1)
  {
    forall row | row in CombineRows(pairs, api, TableFetcher(fetch, parse, now)).value
      ensures IsClockText(row.clock1)
    {
      TableRowOrigin(pairs, api, fetch, parse, now, row);
      var k, e1, e2 :|
        && 0 <= k < |pairs| && Configured(pairs[k], api)
        && e1 in UpcomingEtas(pairs[k].route1, api[pairs[k].route1], fetch, parse, now, Some(MaxResults))
        && e2 in UpcomingEtas(pairs[k].route2, api[pairs[k].route2], fetch, parse, now, Some(MaxResults))
        && Feasible(pairs[k], e1, e2) && row == MakeRow(pairs[k], e1, e2);
      ClockTextIsClockText(LocalSecondOfDay(e1.instant));
    }
  }

  /** Python's order on the sort key `(_eta2_dt, "ETA to ...")`: by route-2
      instant, then by route-1 clock text as a string. */
  predicate TupleLess(a: Row, b: Row)
  {
    a.instant2 < b.instant2 || (a.instant2 == b.instant2 && LexLess(a.clock1, b.clock1))
  }

  /** The sort key as one integer: route-2 instant, then route-1 second of
      the day read back from the clock text. */
  function TableKey(row: Row): int
  {
    row.instant2 * SecondsPerDay + ClockSeconds(row.clock1)
  }

  /** On rows with well-formed clock texts the integer key orders and groups
      rows exactly as Python's tuple comparison does. */
  lemma TableKeyOrder(a: Row, b: Row)
    requires IsClockText(a.clock1) && IsClockText(b.clock1)
    ensures TableKey(a) < TableKey(b) <==> TupleLess(a, b)
    ensures TableKey(a) == TableKey(b) <==> a.instant2 == b.instant2 && a.clock1 == b.clock1
  {
    ClockTextOrder(ClockSeconds(a.clock1), ClockSeconds(b.clock1));
  }

  /** The table before the internal key is removed, in Python's order. */
  function SortedTable(pairs: seq<RoutePair>, api: map<string, seq<string>>, fetch: Fetch, parse: Parser, now: int): (r: Result<seq<Row>, LookupError>)
    ensures var t := CombineRows(pairs, api, TableFetcher(fetch, parse, now));
      && (r.Success? <==> t.Success?)
      && (r.Failure? ==> r.error == t.error)
      && (r.Success? ==> multiset(r.value) == multiset(t.value))
      && (r.Success? ==> forall i, j :: 0 <= i < j < |r.value| ==> !TupleLess(r.value[j], r.value[i]))
  {
    match CombineRows(pairs, api, TableFetcher(fetch, parse, now))
    case Failure(e) => Failure(e)
    case Success(rows) =>
      var sorted := SortBy(rows, TableKey);
      TableRowsClockText(pairs, api, fetch, parse, now);
      KeySortIsTupleSort(rows, sorted);
      Success(sorted)
  }

  /** Sorting well-formed rows by the integer key leaves them ascending in
      tuple order. */
  lemma KeySortIsTupleSort(rows: seq<Row>, sorted: seq<Row>)
    requires forall row :: row in rows ==> IsClockText(row.clock1)
    requires SortedBy(sorted, TableKey) && multiset(sorted) == multiset(rows)
    ensures forall i, j :: 0 <= i < j < |sorted| ==> !TupleLess(sorted[j], sorted[i])
  {
    forall i, j | 0 <= i < j < |sorted|
      ensures !TupleLess(sorted[j], sorted[i])
    {
      assert sorted[i] in multiset(rows) && sorted[j] in multiset(rows);
      TableKeyOrder(sorted[j], sorted[i]);
    }
  }

  /** The table's order is Python's `sort` with the tuple key: any
      arrangement of the unsorted rows that is ascending in tuple order and
      keeps rows with equal keys in their unsorted order is exactly the
      table's order. */
  lemma SortedTableIsPythonSort(pairs: seq<RoutePair>, api: map<string, seq<string>>, fetch: Fetch, parse: Parser, now: int, out: seq<Row>)
    requires CombineRows(pairs, api, TableFetcher(fetch, parse, now)).Success?
    requires forall row :: row in out ==> IsClockText(row.clock1)
    requires forall i, j :: 0 <= i < j < |out| ==> !TupleLess(out[j], out[i])
    requires forall k :: KeyFilter(out, TableKey, k) == KeyFilter(CombineRows(pairs, api, TableFetcher(fetch, parse, now)).value, TableKey, k)
    ensures SortedTable(pairs, api, fetch, parse, now) == Success(out)
  {
    var rows := CombineRows(pairs, api, TableFetcher(fetch, parse, now)).value;
    forall i, j | 0 <= i < j < |out|
      ensures TableKey(out[i]) <= TableKey(out[j])
    {
      TableKeyOrder(out[j], out[i]);
    }
    forall k
      ensures KeyFilter(out, TableKey, k) == KeyFilter(SortBy(rows, TableKey), TableKey, k)
    {
      SortByStable(rows, TableKey, k);
    }
    StableSortUnique(out, SortBy(rows, TableKey), TableKey);
  }

  /** `build_route_comparison_table`: the sorted rows without their internal
      key, or the lookup error of the first route missing from the map. */
  function BuildRouteComparisonTable(pairs: seq<RoutePair>, api: map<string, seq<string>>, fetch: Fetch, parse: Parser, now: int): (r: Result<seq<DisplayRow>, LookupError>)
    ensures r.Success? <==> forall k :: 0 <= k < |pairs| ==> Configured(pairs[k], api)
    ensures r.Failure? ==> FirstMissing(pairs, api, r.error.route)
    ensures r.Success? ==> forall d :: d in r.value ==> d.slack >= 0
    ensures r.Success? ==> var s := SortedTable(pairs, api, fetch, parse, now);
      && s.Success? && |r.value| == |s.value|
      && forall i :: 0 <= i < |r.value| ==> Restore(r.value[i], s.value[i].instant2) == s.value[i]
  {
    var sorted := SortedTable(pairs, api, fetch, parse, now);
    if sorted.Success? then
      PermutedSlack(sorted.value, CombineRows(pairs, api, TableFetcher(fetch, parse, now)).value);
      StripTable(sorted)
    else
      StripTable(sorted)
  }
}

=== FILE: feed.dfy ===
/** The part of `get_upcoming_etas` that both dashboard variants share: reading
    the items of every endpoint's response, keeping the ones that describe an
    upcoming arrival of the requested route, and turning them into arrival
    entries. */
module Feed {
  import opened Common
  import opened Clock
  import opened Sorting

  /** One element of a response's `data` list. A `Record` is a JSON object;
      `route` and `eta` are `None` when the field is absent or not a string.
      `NonRecord` is any other JSON value, on which `item.get` raises. */
  datatype RawItem = Record(route: Option<string>, eta: Option<string>) | NonRecord

  /** What one endpoint produced: `Failed` for a transport error, a timeout, a
      non-success status, a body that is not JSON, a JSON body that is not an
      object (on which `data.get` raises) or a `data` member that is not a
      list; otherwise the items of `data` (empty when it is absent). */
  datatype Response = Failed | Ok(items: seq<RawItem>)

  /** One upcoming arrival: UTC+8 `HH:MM:SS` text, whole minutes remaining,
      and the instant (microseconds since the epoch). */
  datatype Entry = Entry(clock: string, minutes: int, instant: int)

  /** The parse oracle standing for `datetime.fromisoformat` followed by
      `astimezone(HKT)`: the instant a timestamp text denotes, or `None` when
      either call raises. */
  type Parser = string -> Option<int>

  /** The fetch oracle: what a request to a URL produces. */
  type Fetch = string -> Response

  function InstantOf(e: Entry): int { e.instant }

  /** An entry as the fetcher builds it: strictly after `now`, showing the
      floor of the minutes remaining and the UTC+8 clock time of its instant. */
  predicate ValidEntry(e: Entry, now: int)
  {
    && e.instant > now
    && 0 <= e.minutes
    && e.minutes * MicrosPerMinute <= e.instant - now < (e.minutes + 1) * MicrosPerMinute
    && e.clock == ClockText(LocalSecondOfDay(e.instant))
  }

  function CountZ(s: string): nat
  {
    if |s| == 0 then 0 else (if s[0] == 'Z' then 1 else 0) + CountZ(s[1..])
  }

  /** `s.replace("Z", "+00:00")`: every `Z` becomes the UTC offset text. */
  function ReplaceZ(s: string): (r: string)
    ensures forall i :: 0 <= i < |r| ==> r[i] != 'Z'
    ensures (forall i :: 0 <= i < |s| ==> s[i] != 'Z') ==> r == s
    ensures |r| == |s| + 5 * CountZ(s)
    ensures |s| == 1 ==> r == (if s[0] == 'Z' then "+00:00" else s)
  {
    if |s| == 0 then ""
    else
      var rest := ReplaceZ(s[1..]);
      assert forall i :: 1 <= i < |s| ==> s[1..][i - 1] == s[i];
      (if s[0] == 'Z' then "+00:00" else [s[0]]) + rest
  }

  /** The replacement works piece by piece: replacing in a concatenation
      concatenates the replacements. */
  lemma {:induction false} ReplaceZConcat(a: string, b: string)
    ensures ReplaceZ(a + b) == ReplaceZ(a) + ReplaceZ(b)
  {
    if |a| > 0 {
      assert (a + b)[0] == a[0];
      assert (a + b)[1..] == a[1..] + b;
      ReplaceZConcat(a[1..], b);
    } else {
      assert a + b == b;
    }
  }

  /** The entry for an arrival at instant `t`, seen at `now`. */
  function MakeEntry(t: int, now: int): (e: Entry)
    requires t > now
    ensures ValidEntry(e, now) && e.instant == t
  {
    Entry(ClockText(LocalSecondOfDay(t)), RemainingMinutes(t, now), t)
  }

  /** The instant an item's `eta` denotes, if the item passes the route and
      non-empty-`eta` filter and the timestamp parses. */
  function ParsedInstant(route: string, item: RawItem, parse: Parser): Option<int>
  {
    if item.Record? && item.route == Some(route) && item.eta.Some? && |item.eta.value| > 0
    then parse(ReplaceZ(item.eta.value))
    else None
  }

  /** What one item contributes: an entry exactly when the route matches
      exactly, the `eta` is non-empty, it parses, and it lies after `now`. */
  function ItemEntry(route: string, item: RawItem, parse: Parser, now: int): (r: Option<Entry>)
    ensures r.Some? <==>
      && item.Record? && item.route == Some(route)
      && item.eta.Some? && |item.eta.value| > 0
      && parse(ReplaceZ(item.eta.value)).Some?
      && parse(ReplaceZ(item.eta.value)).value > now
    ensures r.Some? ==> ValidEntry(r.value, now) && parse(ReplaceZ(item.eta.value)) == Some(r.value.instant)
  {
    match ParsedInstant(route, item, parse)
    case None => None
    case Some(t) => if t > now then Some(MakeEntry(t, now)) else None
  }

  /** How many items are processed before a non-object item raises out of
      the endpoint's `try` block. */
  function LeadingRecords(items: seq<RawItem>): (n: nat)
    ensures n <= |items|
    ensures forall i :: 0 <= i < n ==> items[i].Record?
    ensures n < |items| ==> items[n].NonRecord?
  {
    if |items| == 0 || items[0].NonRecord? then 0 else 1 + LeadingRecords(items[1..])
  }

  /** The entries one successful response contributes, in item order. A
      non-object item abandons the rest of the response; the entries already
      taken from it stay. */
  function ItemsEntries(route: string, items: seq<RawItem>, parse: Parser, now: int): (r: seq<Entry>)
    ensures forall e :: e in r ==> ValidEntry(e, now)
    ensures |r| <= |items|
  {
    if |items| == 0 then []
    else match items[0]
      case NonRecord => []
      case Record(_, _) => OptionToSeq(ItemEntry(route, items[0], parse, now)) + ItemsEntries(route, items[1..], parse, now)
  }

  /** An entry comes out of a response exactly when some item before the
      first non-object item yields it. */
  lemma {:induction false} ItemsEntriesMembership(route: string, items: seq<RawItem>, parse: Parser, now: int, e: Entry)
    ensures e in ItemsEntries(route, items, parse, now) <==>
      exists k :: 0 <= k < LeadingRecords(items) && ItemEntry(route, items[k], parse, now) == Some(e)
  {
    if |items| > 0 && items[0].Record? {
      ItemsEntriesMembership(route, items[1..], parse, now, e);
      var n := LeadingRecords(items);
      assert n == 1 + LeadingRecords(items[1..]);
      if exists k :: 0 <= k < n && ItemEntry(route, items[k], parse, now) == Some(e) {
        var k :| 0 <= k < n && ItemEntry(route, items[k], parse, now) == Some(e);
        if k > 0 {
          assert items[1..][k - 1] == items[k];
        }
      }
      if exists k :: 0 <= k < n - 1 && ItemEntry(route, items[1..][k], parse, now) == Some(e) {
        var k :| 0 <= k < n - 1 && ItemEntry(route, items[1..][k], parse, now) == Some(e);
        assert items[k + 1] == items[1..][k];
      }
    }
  }

  /** Items are handled one at a time: after a run of object items, what the
      rest contributes is simply appended, and a non-object item cuts the
      response short. */
  lemma {:induction false} ItemsEntriesSplit(route: string, a: seq<RawItem>, b: seq<RawItem>, parse: Parser, now: int)
    requires forall i :: 0 <= i < |a| ==> a[i].Record?
    ensures ItemsEntries(route, a + b, parse, now) == ItemsEntries(route, a, parse, now) + ItemsEntries(route, b, parse, now)
    ensures ItemsEntries(route, a + [NonRecord] + b, parse, now) == ItemsEntries(route, a, parse, now)
  {
    if |a| == 0 {
      assert a + b == b;
      assert a + [NonRecord] + b == [NonRecord] + b;
    } else {
      assert (a + b)[0] == a[0] && (a + b)[1..] == a[1..] + b;
      assert (a + [NonRecord] + b)[0] == a[0];
      assert (a + [NonRecord] + b)[1..] == a[1..] + [NonRecord] + b;
      ItemsEntriesSplit(route, a[1..], b, parse, now);
    }
  }

  /** An item that is filtered out or fails to parse is skipped on its own:
      the items before and after it contribute exactly what they would
      without it. */
  lemma RejectedItemSkipped(route: string, a: seq<RawItem>, x: RawItem, b: seq<RawItem>, parse: Parser, now: int)
    requires forall i :: 0 <= i < |a| ==> a[i].Record?
    requires x.Record? && ItemEntry(route, x, parse, now).None?
    ensures ItemsEntries(route, a + [x] + b, parse, now) == ItemsEntries(route, a, parse, now) + ItemsEntries(route, b, parse, now)
  {
    var xb := [x] + b;
    assert xb[0] == x && xb[1..] == b;
    assert OptionToSeq(ItemEntry(route, x, parse, now)) == [];
    assert ItemsEntries(route, xb, parse, now) == ItemsEntries(route, b, parse, now);
    ItemsEntriesSplit(route, a, xb, parse, now);
    assert a + [x] + b == a + xb;
  }

  /** The entries of one endpoint; a failed endpoint contributes none. */
  function EndpointEntries(route: string, response: Response, parse: Parser, now: int): (r: seq<Entry>)
    ensures response.Failed? ==> r == []
    ensures forall e :: e in r ==> ValidEntry(e, now)
  {
    match response
    case Failed => []
    case Ok(items) => ItemsEntries(route, items, parse, now)
  }

  /** The entries of all endpoints, endpoint by endpoint in URL order. */
  function CollectEntries(route: string, urls: seq<string>, fetch: Fetch, parse: Parser, now: int): (r: seq<Entry>)
    ensures forall e :: e in r ==> ValidEntry(e, now)
  {
    if |urls| == 0 then []
    else EndpointEntries(route, fetch(urls[0]), parse, now) + CollectEntries(route, urls[1..], fetch, parse, now)
  }

  /** Endpoints are independent: the entries of two URL lists are those of
      each, one after the other. */
  lemma {:induction false} CollectEntriesConcat(route: string, a: seq<string>, b: seq<string>, fetch: Fetch, parse: Parser, now: int)
    ensures CollectEntries(route, a + b, fetch, parse, now) == CollectEntries(route, a, fetch, parse, now) + CollectEntries(route, b, fetch, parse, now)
  {
    if |a| == 0 {
      ConcatEmpty(a, b);
    } else {
      ConcatCons(a, b);
      var h := EndpointEntries(route, fetch(a[0]), parse, now);
      var x := CollectEntries(route, a[1..], fetch, parse, now);
      var y := CollectEntries(route, b, fetch, parse, now);
      CollectEntriesConcat(route, a[1..], b, fetch, parse, now);
      ConcatAssoc(h, x, y);
    }
  }

  /** A single endpoint contributes exactly its own entries, once each and
      in item order; with `CollectEntriesConcat` this fixes the whole list. */
  lemma CollectEntriesSingle(route: string, u: string, fetch: Fetch, parse: Parser, now: int)
    ensures CollectEntries(route, [u], fetch, parse, now) == EndpointEntries(route, fetch(u), parse, now)
  {
    assert [u][1..] == [];
  }

  /** An entry is collected exactly when some endpoint answered and its
      response yields that entry. */
  lemma {:induction false} CollectEntriesMembership(route: string, urls: seq<string>, fetch: Fetch, parse: Parser, now: int, e: Entry)
    ensures e in CollectEntries(route, urls, fetch, parse, now) <==>
      exists i :: 0 <= i < |urls| && fetch(urls[i]).Ok? && e in ItemsEntries(route, fetch(urls[i]).items, parse, now)
  {
    if |urls| > 0 {
      CollectEntriesMembership(route, urls[1..], fetch, parse, now, e);
      if exists i :: 0 <= i < |urls| && fetch(urls[i]).Ok? && e in ItemsEntries(route, fetch(urls[i]).items, parse, now) {
        var i :| 0 <= i < |urls| && fetch(urls[i]).Ok? && e in ItemsEntries(route, fetch(urls[i]).items, parse, now);
        if i > 0 {
          assert urls[1..][i - 1] == urls[i];
        }
      }
      if exists i :: 0 <= i < |urls| - 1 && fetch(urls[1..][i]).Ok? && e in ItemsEntries(route, fetch(urls[1..][i]).items, parse, now) {
        var i :| 0 <= i < |urls| - 1 && fetch(urls[1..][i]).Ok? && e in ItemsEntries(route, fetch(urls[1..][i]).items, parse, now);
        assert urls[i + 1] == urls[1..][i];
      }
    }
  }

  /** A failed endpoint contributes nothing and leaves the other endpoints'
      entries as they are. */
  lemma FailedEndpointSkipped(route: string, a: seq<string>, u: string, b: seq<string>, fetch: Fetch, parse: Parser, now: int)
    requires fetch(u).Failed?
    ensures CollectEntries(route, a + [u] + b, fetch, parse, now) == CollectEntries(route, a, fetch, parse, now) + CollectEntries(route, b, fetch, parse, now)
  {
    var ub := [u] + b;
    assert ub[0] == u && ub[1..] == b;
    assert CollectEntries(route, ub, fetch, parse, now) == CollectEntries(route, b, fetch, parse, now);
    CollectEntriesConcat(route, a, ub, fetch, parse, now);
    assert a + [u] + b == a + ub;
  }

  /** Python's `s[:n]`: a negative `n` counts from the end. */
  function PyPrefix<T>(s: seq<T>, n: int): (r: seq<T>)
    ensures n >= 0 ==> |r| == Min(n, |s|)
    ensures n < 0 ==> |r| == Max(0, |s| + n)
    ensures r == s[..|r|]
  {
    if n >= 0 then (if n <= |s| then s[..n] else s)
    else if |s| + n >= 0 then s[..|s| + n]
    else []
  }

  /** A prefix of a stable sort of `all` keeps its order and its entries'
      validity and takes no entry more often than `all` holds it. */
  lemma CappedPrefix(all: seq<Entry>, sorted: seq<Entry>, r: seq<Entry>, now: int)
    requires SortedBy(sorted, InstantOf) && multiset(sorted) == multiset(all)
    requires |r| <= |sorted| && r == sorted[..|r|]
    requires forall e :: e in all ==> ValidEntry(e, now)
    ensures SortedBy(r, InstantOf)
    ensures multiset(r) <= multiset(all)
    ensures forall e :: e in r ==> ValidEntry(e, now)
  {
    SortedPrefix(sorted, InstantOf, |r|);
    forall e | e in r
      ensures ValidEntry(e, now)
    {
      assert e in multiset(r);
      assert e in multiset(all);
    }
  }

  /** A prefix of the stable sort of `all` holds the soonest entries: every
      entry of `all` left out arrives no earlier than any entry kept. */
  lemma PrefixKeepsSoonest(all: seq<Entry>, r: seq<Entry>)
    requires |r| <= |all| && r == SortBy(all, InstantOf)[..|r|]
    ensures forall e, x :: e in multiset(all) - multiset(r) && x in r ==> x.instant <= e.instant
  {
    var sorted := SortBy(all, InstantOf);
    SortedPrefixLeast(sorted, InstantOf, |r|);
  }

  /** A prefix of the stable sort of `all` lists the entries sharing an
      instant in collection order (a leading part of that group, or all of
      it when nothing was cut). */
  lemma PrefixStable(all: seq<Entry>, r: seq<Entry>, k: int)
    requires |r| <= |all| && r == SortBy(all, InstantOf)[..|r|]
    ensures KeyFilter(r, InstantOf, k) <= KeyFilter(all, InstantOf, k)
    ensures |r| == |all| ==> KeyFilter(r, InstantOf, k) == KeyFilter(all, InstantOf, k)
  {
    var sorted := SortBy(all, InstantOf);
    SortByStable(all, InstantOf, k);
    KeyFilterPrefix(sorted, InstantOf, k, |r|);
    TakeAll(sorted);
  }
}

=== FILE: sorting.dfy ===
/** A stable sort by an integer key, the behaviour of Python's `list.sort` and
    `sorted` with a `key=` argument, together with the facts the rest of the
    model relies on: the result is ordered, it is a permutation of the input,
    and elements with equal keys keep their input order. */
module Sorting {

  /** `s` is in ascending key order. */
  predicate SortedBy<T>(s: seq<T>, key: T -> int)
  {
    forall i, j :: 0 <= i < j < |s| ==> key(s[i]) <= key(s[j])
  }

  /** The elements of `s` whose key is `k`, in their order in `s`. Two
      sequences with the same `KeyFilter` for every `k` list every group of
      equal-key elements in the same relative order. */
  function KeyFilter<T>(s: seq<T>, key: T -> int, k: int): (r: seq<T>)
    ensures |r| <= |s|
  {
    if |s| == 0 then []
    else (if key(s[0]) == k then [s[0]] else []) + KeyFilter(s[1..], key, k)
  }

  /** Inserts `x` into the sorted `s`, in front of every element whose key is
      not smaller, so that `x` precedes the elements it ties with. */
  function Insert<T>(x: T, s: seq<T>, key: T -> int): (r: seq<T>)
    requires SortedBy(s, key)
    ensures SortedBy(r, key)
    ensures |r| == |s| + 1
    ensures multiset(r) == multiset(s) + multiset{x}
  {
    if |s| == 0 || key(x) <= key(s[0]) then
      [x] + s
    else
      var t := Insert(x, s[1..], key);
      assert s == [s[0]] + s[1..];
      LowerBound(s[0], x, s[1..], t, key);
      [s[0]] + t
  }

  /** Prepending a lower bound to a sorted sequence keeps it sorted. */
  lemma LowerBound<T>(y: T, x: T, s: seq<T>, t: seq<T>, key: T -> int)
    requires SortedBy([y] + s, key) && SortedBy(t, key)
    requires key(y) <= key(x)
    requires multiset(t) == multiset(s) + multiset{x}
    ensures SortedBy([y] + t, key)
  {
    forall i | 0 <= i < |t|
      ensures key(y) <= key(t[i])
    {
      assert t[i] in multiset(t);
      assert ([y] + s)[0] == y;
      if t[i] != x {
        assert t[i] in multiset(s);
        var j :| 0 <= j < |s| && s[j] == t[i];
        assert ([y] + s)[j + 1] == s[j];
      }
    }
  }

  /** The group of `k` in `[y] + s`: `y` if its key is `k`, then the group in `s`. */
  lemma KeyFilterCons<T>(y: T, s: seq<T>, key: T -> int, k: int)
    ensures KeyFilter([y] + s, key, k) == (if key(y) == k then [y] else []) + KeyFilter(s, key, k)
  {
    assert ([y] + s)[0] == y;
    assert ([y] + s)[1..] == s;
  }

  /** Inserting `x` puts it at the head of its equal-key group and leaves
      every other group untouched. */
  lemma {:induction false} InsertKeyFilter<T>(x: T, s: seq<T>, key: T -> int, k: int)
    requires SortedBy(s, key)
    ensures KeyFilter(Insert(x, s, key), key, k) == (if key(x) == k then [x] else []) + KeyFilter(s, key, k)
  {
    if |s| == 0 || key(x) <= key(s[0]) {
      assert Insert(x, s, key) == [x] + s;
      KeyFilterCons(x, s, key, k);
    } else {
      var t := Insert(x, s[1..], key);
      assert Insert(x, s, key) == [s[0]] + t;
      InsertKeyFilter(x, s[1..], key, k);
      KeyFilterCons(s[0], t, key, k);
      assert s == [s[0]] + s[1..];
      KeyFilterCons(s[0], s[1..], key, k);
      assert key(s[0]) != k || key(x) != k;
    }
  }

  /** Every element of an equal-key group comes from the sequence and has
      that key. */
  lemma {:induction false} KeyFilterMember<T>(s: seq<T>, key: T -> int, k: int, x: T)
    requires x in KeyFilter(s, key, k)
    ensures x in s && key(x) == k
  {
    if |s| > 0 && !(key(s[0]) == k && x == s[0]) {
      KeyFilterMember(s[1..], key, k, x);
    }
  }

  /** Stable insertion sort by `key`. */
  function SortBy<T>(s: seq<T>, key: T -> int): (r: seq<T>)
    ensures SortedBy(r, key)
    ensures |r| == |s|
    ensures multiset(r) == multiset(s)
  {
    if |s| == 0 then []
    else
      assert s == [s[0]] + s[1..];
      Insert(s[0], SortBy(s[1..], key), key)
  }

  /** `SortBy` is stable: every equal-key group keeps its input order. */
  lemma {:induction false} SortByStable<T>(s: seq<T>, key: T -> int, k: int)
    ensures KeyFilter(SortBy(s, key), key, k) == KeyFilter(s, key, k)
  {
    if |s| > 0 {
      SortByStable(s[1..], key, k);
      InsertKeyFilter(s[0], SortBy(s[1..], key), key, k);
    }
  }

  /** A sorted sequence keeps its order in any prefix, and the prefix of length
      `n` holds elements whose keys are no larger than any key after it. */
  lemma SortedPrefix<T>(s: seq<T>, key: T -> int, n: nat)
    requires SortedBy(s, key)
    requires n <= |s|
    ensures SortedBy(s[..n], key)
    ensures forall i, j :: 0 <= i < n <= j < |s| ==> key(s[i]) <= key(s[j])
    ensures multiset(s[..n]) + multiset(s[n..]) == multiset(s)
  {
    assert s == s[..n] + s[n..];
  }

  /** Whatever a sorted sequence's prefix leaves out has a key no smaller
      than any key the prefix keeps. */
  lemma SortedPrefixLeast<T>(s: seq<T>, key: T -> int, n: nat)
    requires SortedBy(s, key)
    requires n <= |s|
    ensures forall e, x :: e in multiset(s) - multiset(s[..n]) && x in s[..n] ==> key(x) <= key(e)
  {
    var kept, dropped := s[..n], s[n..];
    assert s == kept + dropped;
    assert multiset(s) - multiset(kept) == multiset(dropped);
    forall e, x | e in multiset(s) - multiset(kept) && x in kept
      ensures key(x) <= key(e)
    {
      assert e in dropped;
      var j :| 0 <= j < |dropped| && dropped[j] == e;
      var i :| 0 <= i < n && kept[i] == x;
      assert s[i] == x && s[n + j] == e;
    }
  }

  /** Taking a prefix keeps each equal-key group a prefix of the original
      group. */
  lemma {:induction false} KeyFilterPrefix<T>(s: seq<T>, key: T -> int, k: int, n: nat)
    requires n <= |s|
    ensures KeyFilter(s[..n], key, k) <= KeyFilter(s, key, k)
  {
    if n > 0 {
      assert s[..n][1..] == s[1..][..n - 1];
      KeyFilterPrefix(s[1..], key, k, n - 1);
    }
  }

  /** A non-empty sequence has a non-empty group for its first key. */
  lemma KeyFilterHead<T>(s: seq<T>, key: T -> int)
    ensures |s| > 0 ==> KeyFilter(s, key, key(s[0])) != []
  {
  }

  /** A sorted sequence is determined by its equal-key groups: two sorted
      sequences that list every group identically are equal. Hence `SortBy`
      is THE stable sort: any ascending arrangement that keeps ties in input
      order is exactly `SortBy`'s result. */
  lemma {:induction false} StableSortUnique<T>(a: seq<T>, b: seq<T>, key: T -> int)
    requires SortedBy(a, key) && SortedBy(b, key)
    requires forall k :: KeyFilter(a, key, k) == KeyFilter(b, key, k)
    ensures a == b
  {
    if |a| == 0 || |b| == 0 {
      KeyFilterHead(a, key);
      KeyFilterHead(b, key);
    } else {
      var ka, kb := key(a[0]), key(b[0]);
      var ya := KeyFilter(b, key, ka)[0];
      assert KeyFilter(a, key, ka)[0] == a[0];
      KeyFilterMember(b, key, ka, ya);
      var m :| 0 <= m < |b| && b[m] == ya;
      assert kb <= ka;
      var yb := KeyFilter(a, key, kb)[0];
      assert KeyFilter(b, key, kb)[0] == b[0];
      KeyFilterMember(a, key, kb, yb);
      var l :| 0 <= l < |a| && a[l] == yb;
      assert ka <= kb;
      assert a[0] == b[0];
      forall k
        ensures KeyFilter(a[1..], key, k) == KeyFilter(b[1..], key, k)
      {
        var fa, fb := KeyFilter(a, key, k), KeyFilter(b, key, k);
        if k == ka {
          assert fa == [a[0]] + KeyFilter(a[1..], key, k);
          assert fb == [b[0]] + KeyFilter(b[1..], key, k);
          assert fa[1..] == KeyFilter(a[1..], key, k);
          assert fb[1..] == KeyFilter(b[1..], key, k);
        } else {
          assert fa == KeyFilter(a[1..], key, k);
          assert fb == KeyFilter(b[1..], key, k);
        }
      }
      StableSortUnique(a[1..], b[1..], key);
      assert a == [a[0]] + a[1..];
      assert b == [b[0]] + b[1..];
    }
  }
}

=== FILE: static_table.dfy ===
/** The static page (`main-static.py`): its `get_upcoming_etas`, which applies
    the cap whenever one is given, and `build_table`, which orders rows by the
    route-2 arrival alone. */
module StaticTable {
  import opened Common
  import opened Sorting
  import opened Feed
  import opened Transfer

  /** The upcoming arrivals of `route`: every valid entry, soonest first,
      then cut to `etas[:max_results]` whenever `max_results is not None`. */
  function UpcomingEtas(route: string, urls: seq<string>, fetch: Fetch, parse: Parser, now: int, maxResults: Option<int>): (r: seq<Entry>)
    ensures forall e :: e in r ==> ValidEntry(e, now)
    ensures SortedBy(r, InstantOf)
    ensures multiset(r) <= multiset(CollectEntries(route, urls, fetch, parse, now))
    ensures maxResults.None? ==>
      multiset(r) == multiset(CollectEntries(route, urls, fetch, parse, now))
    ensures maxResults.Some? && maxResults.value >= 0 ==>
      |r| == Min(maxResults.value, |CollectEntries(route, urls, fetch, parse, now)|)
    ensures maxResults.Some? && maxResults.value < 0 ==>
      |r| == Max(0, |CollectEntries(route, urls, fetch, parse, now)| + maxResults.value)
  {
    var all := CollectEntries(route, urls, fetch, parse, now);
    var sorted := SortBy(all, InstantOf);
    if maxResults.None? then
      assert sorted == sorted[..|sorted|];
      CappedPrefix(all, sorted, sorted, now);
      sorted
    else
      var r := PyPrefix(sorted, maxResults.value);
      CappedPrefix(all, sorted, r, now);
      r
  }

  /** The cap keeps the soonest arrivals: every retained entry that was cut
      off arrives no earlier than any entry that was kept. */
  lemma UpcomingEtasSoonest(route: string, urls: seq<string>, fetch: Fetch, parse: Parser, now: int, maxResults: Option<int>)
    ensures var all := CollectEntries(route, urls, fetch, parse, now);
      var r := UpcomingEtas(route, urls, fetch, parse, now, maxResults);
      forall e, x :: e in multiset(all) - multiset(r) && x in r ==> x.instant <= e.instant
  {
    var all := CollectEntries(route, urls, fetch, parse, now);
    var r := UpcomingEtas(route, urls, fetch, parse, now, maxResults);
    var sorted := SortBy(all, InstantOf);
    if maxResults.None? {
      assert r == sorted;
      TakeAll(sorted);
    } else {
      assert r == PyPrefix(sorted, maxResults.value);
    }
    PrefixKeepsSoonest(all, r);
  }

  /** Ties keep endpoint order, then item order. */
  lemma UpcomingEtasStable(route: string, urls: seq<string>, fetch: Fetch, parse: Parser, now: int, maxResults: Option<int>, k: int)
    ensures var all := CollectEntries(route, urls, fetch, parse, now);
      var r := UpcomingEtas(route, urls, fetch, parse, now, maxResults);
      && KeyFilter(r, InstantOf, k) <= KeyFilter(all, InstantOf, k)
      && (maxResults.None? ==> KeyFilter(r, InstantOf, k) == KeyFilter(all, InstantOf, k))
  {
    var all := CollectEntries(route, urls, fetch, parse, now);
    var r := UpcomingEtas(route, urls, fetch, parse, now, maxResults);
    var sorted := SortBy(all, InstantOf);
    if maxResults.None? {
      assert r == sorted;
      TakeAll(sorted);
    } else {
      assert r == PyPrefix(sorted, maxResults.value);
    }
    PrefixStable(all, r, k);
  }

  /** The fetcher `build_table` uses: `max_results=5`. */
  function TableFetcher(fetch: Fetch, parse: Parser, now: int): Upcoming
  {
    (route: string, urls: seq<string>) => UpcomingEtas(route, urls, fetch, parse, now, Some(5))
  }

  /** Each pair contributes at most 5 x 5 = 25 rows. */
  lemma PairRowsBounded(p: RoutePair, api: map<string, seq<string>>, fetch: Fetch, parse: Parser, now: int)
    requires Configured(p, api)
    ensures |PairTable(p, api, TableFetcher(fetch, parse, now))| <= 25
  {
    var a := UpcomingEtas(p.route1, api[p.route1], fetch, parse, now, Some(5));
    var b := UpcomingEtas(p.route2, api[p.route2], fetch, parse, now, Some(5));
    assert PairTable(p, api, TableFetcher(fetch, parse, now)) == PairRows(p, a, b);
    ProductBound(|a|, |b|, 5);
  }

  function Instant2(row: Row): int { row.instant2 }

  /** `sorted(table, key=...)`: by route-2 instant, stable. */
  function SortedTable(pairs: seq<RoutePair>, api: map<string, seq<string>>, fetch: Fetch, parse: Parser, now: int): (r: Result<seq<Row>, LookupError>)
    ensures var t := CombineRows(pairs, api, TableFetcher(fetch, parse, now));
      && (r.Success? <==> t.Success?)
      && (r.Failure? ==> r.error == t.error)
      && (r.Success? ==> multiset(r.value) == multiset(t.value))
      && (r.Success? ==> SortedBy(r.value, Instant2))
  {
    match CombineRows(pairs, api, TableFetcher(fetch, parse, now))
    case Failure(e) => Failure(e)
    case Success(rows) => Success(SortBy(rows, Instant2))
  }

  /** Rows with equal route-2 instants keep their insertion order: pair
      order, then route-1 arrival order, then route-2 arrival order. */
  lemma SortedTableStable(pairs: seq<RoutePair>, api: map<string, seq<string>>, fetch: Fetch, parse: Parser, now: int, k: int)
    requires SortedTable(pairs, api, fetch, parse, now).Success?
    ensures KeyFilter(SortedTable(pairs, api, fetch, parse, now).value, Instant2, k)
      == KeyFilter(CombineRows(pairs, api, TableFetcher(fetch, parse, now)).value, Instant2, k)
  {
    SortByStable(CombineRows(pairs, api, TableFetcher(fetch, parse, now)).value, Instant2, k);
  }

  /** `build_table`: the sorted rows copied without their internal key, or
      the lookup error of the first route missing from the map. */
  function BuildTable(pairs: seq<RoutePair>, api: map<string, seq<string>>, fetch: Fetch, parse: Parser, now: int): (r: Result<seq<DisplayRow>, LookupError>)
    ensures r.Success? <==> forall k :: 0 <= k < |pairs| ==> Configured(pairs[k], api)
    ensures r.Failure? ==> FirstMissing(pairs, api, r.error.route)
    ensures r.Success? ==> forall d :: d in r.value ==> d.slack >= 0
    ensures r.Success? ==> var s := SortedTable(pairs, api, fetch, parse, now);
      && s.Success? && |r.value| == |s.value|
      && forall i :: 0 <= i < |r.value| ==> Restore(r.value[i], s.value[i].instant2) == s.value[i]
  {
    var sorted := SortedTable(pairs, api, fetch, parse, now);
    if sorted.Success? then
      PermutedSlack(sorted.value, CombineRows(pairs, api, TableFetcher(fetch, parse, now)).value);
      StripTable(sorted)
    else
      StripTable(sorted)
  }
}

=== FILE: transfer.dfy ===
/** The transfer matcher both dashboard variants share: for each configured
    route pair, every combination of an upcoming route-1 arrival and an
    upcoming route-2 arrival that leaves enough time for the transfer becomes
    a table row. */
module Transfer {
  import opened Common
  import opened Clock
  import opened Feed

  /** A configured transfer: ride `route1`, get off at `getOff`, walk for
      `transfer` minutes, board `route2`. */
  datatype RoutePair = RoutePair(route1: string, route2: string, transfer: int, getOff: string)

  /** A table row before the internal sort key is removed; `instant2` is the
      route-2 arrival instant (`_eta2_dt`). */
  datatype Row = Row(
    route1: string, clock1: string, minutes1: int, getOff: string,
    route2: string, clock2: string, minutes2: int, slack: int, instant2: int)

  /** A row as the caller receives it, without the internal sort key. */
  datatype DisplayRow = DisplayRow(
    route1: string, clock1: string, minutes1: int, getOff: string,
    route2: string, clock2: string, minutes2: int, slack: int)

  /** `route_api[route]` raising `KeyError`. */
  datatype LookupError = KeyError(route: string)

  /** Fetches the upcoming arrivals of a route from its URLs: each dashboard
      variant supplies its own `get_upcoming_etas`. */
  type Upcoming = (string, seq<string>) -> seq<Entry>

  /** "Shortest ETR": minutes to spare after riding route 1, transferring,
      and waiting for route 2. */
  function Slack(p: RoutePair, e1: Entry, e2: Entry): int
  {
    e2.minutes - p.transfer - e1.minutes
  }

  predicate Feasible(p: RoutePair, e1: Entry, e2: Entry)
  {
    Slack(p, e1, e2) >= 0
  }

  function MakeRow(p: RoutePair, e1: Entry, e2: Entry): Row
  {
    Row(p.route1, e1.clock, e1.minutes, p.getOff, p.route2, e2.clock, e2.minutes, Slack(p, e1, e2), e2.instant)
  }

  /** What the slack means in real time: because both minute counts are
      rounded down, the true gap between the two arrivals, less the
      transfer, lies within one minute of the slack either way. A slack of 0
      can therefore be a connection missed by almost a minute. */
  lemma SlackMeaning(p: RoutePair, e1: Entry, e2: Entry, now: int)
    requires ValidEntry(e1, now) && ValidEntry(e2, now)
    ensures (Slack(p, e1, e2) - 1) * MicrosPerMinute
      < e2.instant - e1.instant - p.transfer * MicrosPerMinute
      < (Slack(p, e1, e2) + 1) * MicrosPerMinute
  {
  }

  /** The inner loop: rows for one route-1 arrival against the route-2
      arrivals, in route-2 order. */
  function RowsFor(p: RoutePair, e1: Entry, ups2: seq<Entry>): (r: seq<Row>)
    ensures |r| <= |ups2|
    ensures forall row :: row in r ==> row.slack >= 0
  {
    if |ups2| == 0 then []
    else
      (if Feasible(p, e1, ups2[0]) then [MakeRow(p, e1, ups2[0])] else [])
      + RowsFor(p, e1, ups2[1..])
  }

  /** The outer loop: rows for every route-1 arrival in order. */
  function PairRows(p: RoutePair, ups1: seq<Entry>, ups2: seq<Entry>): (r: seq<Row>)
    ensures |r| <= |ups1| * |ups2|
    ensures forall row :: row in r ==> row.slack >= 0
  {
    if |ups1| == 0 then []
    else
      var rest := PairRows(p, ups1[1..], ups2);
      assert |rest| <= (|ups1| - 1) * |ups2|;
      assert (|ups1| - 1) * |ups2| + |ups2| == |ups1| * |ups2|;
      RowsFor(p, ups1[0], ups2) + rest
  }

  /** Lexicographic order on index pairs. */
  predicate IndexLess(a: (int, int), b: (int, int))
  {
    a.0 < b.0 || (a.0 == b.0 && a.1 < b.1)
  }

  predicate StrictlyIncreasing(cs: seq<(int, int)>)
  {
    forall a, b :: 0 <= a < b < |cs| ==> IndexLess(cs[a], cs[b])
  }

  /** The feasible combinations `(i, j)` with route-1 index `i` and route-2
      index `j` from `j0` on. */
  function InnerCombos(p: RoutePair, ups1: seq<Entry>, ups2: seq<Entry>, i: int, j0: int): (cs: seq<(int, int)>)
    requires 0 <= i < |ups1| && 0 <= j0 <= |ups2|
    ensures StrictlyIncreasing(cs)
    ensures forall c :: c in cs <==> c.0 == i && j0 <= c.1 < |ups2| && Feasible(p, ups1[i], ups2[c.1])
    decreases |ups2| - j0
  {
    if j0 == |ups2| then []
    else
      var rest := InnerCombos(p, ups1, ups2, i, j0 + 1);
      assert forall a :: 0 <= a < |rest| ==> rest[a] in rest;
      (if Feasible(p, ups1[i], ups2[j0]) then [(i, j0)] else []) + rest
  }

  /** The feasible combinations whose route-1 index is at least `i0`. */
  function CombosFrom(p: RoutePair, ups1: seq<Entry>, ups2: seq<Entry>, i0: int): (cs: seq<(int, int)>)
    requires 0 <= i0 <= |ups1|
    ensures StrictlyIncreasing(cs)
    ensures forall c :: c in cs <==> i0 <= c.0 < |ups1| && 0 <= c.1 < |ups2| && Feasible(p, ups1[c.0], ups2[c.1])
    decreases |ups1| - i0
  {
    if i0 == |ups1| then []
    else
      var inner := InnerCombos(p, ups1, ups2, i0, 0);
      var rest := CombosFrom(p, ups1, ups2, i0 + 1);
      assert forall a :: 0 <= a < |inner| ==> inner[a] in inner;
      assert forall a :: 0 <= a < |rest| ==> rest[a] in rest;
      inner + rest
  }

  /** The rows the combinations `cs` stand for. */
  function RowsAt(p: RoutePair, ups1: seq<Entry>, ups2: seq<Entry>, cs: seq<(int, int)>): (r: seq<Row>)
    requires forall c :: c in cs ==> 0 <= c.0 < |ups1| && 0 <= c.1 < |ups2|
    ensures |r| == |cs|
    ensures forall k :: 0 <= k < |cs| ==> r[k] == MakeRow(p, ups1[cs[k].0], ups2[cs[k].1])
  {
    seq(|cs|, k requires 0 <= k < |cs| => MakeRow(p, ups1[cs[k].0], ups2[cs[k].1]))
  }

  lemma {:induction false} RowsForMatch(p: RoutePair, ups1: seq<Entry>, ups2: seq<Entry>, i: int, j0: int)
    requires 0 <= i < |ups1| && 0 <= j0 <= |ups2|
    ensures RowsFor(p, ups1[i], ups2[j0..]) == RowsAt(p, ups1, ups2, InnerCombos(p, ups1, ups2, i, j0))
    decreases |ups2| - j0
  {
    if j0 < |ups2| {
      RowsForMatch(p, ups1, ups2, i, j0 + 1);
      assert ups2[j0..][0] == ups2[j0] && ups2[j0..][1..] == ups2[j0 + 1..];
    }
  }

  lemma {:induction false} PairRowsMatch(p: RoutePair, ups1: seq<Entry>, ups2: seq<Entry>, i0: int)
    requires 0 <= i0 <= |ups1|
    ensures PairRows(p, ups1[i0..], ups2) == RowsAt(p, ups1, ups2, CombosFrom(p, ups1, ups2, i0))
    decreases |ups1| - i0
  {
    if i0 < |ups1| {
      PairRowsMatch(p, ups1, ups2, i0 + 1);
      RowsForMatch(p, ups1, ups2, i0, 0);
      assert ups1[i0..][0] == ups1[i0] && ups1[i0..][1..] == ups1[i0 + 1..];
      assert ups2[0..] == ups2;
    }
  }

  /** Cross-product completeness: the rows of a pair are exactly one row per
      feasible combination of a route-1 arrival `ups1[i]` and a route-2
      arrival `ups2[j]`, listed by route-1 index and then route-2 index; no
      infeasible combination and no combination twice. */
  lemma PairRowsEnumerate(p: RoutePair, ups1: seq<Entry>, ups2: seq<Entry>)
    ensures var cs := CombosFrom(p, ups1, ups2, 0);
      && StrictlyIncreasing(cs)
      && (forall i, j :: 0 <= i < |ups1| && 0 <= j < |ups2| ==> ((i, j) in cs <==> Feasible(p, ups1[i], ups2[j])))
      && (forall c :: c in cs ==> 0 <= c.0 < |ups1| && 0 <= c.1 < |ups2|)
      && PairRows(p, ups1, ups2) == RowsAt(p, ups1, ups2, cs)
  {
    PairRowsMatch(p, ups1, ups2, 0);
    assert ups1[0..] == ups1;
  }

  /** Every row of a pair comes from one feasible combination of the two
      routes' arrivals and copies their fields. */
  lemma PairRowsSound(p: RoutePair, ups1: seq<Entry>, ups2: seq<Entry>, row: Row)
    requires row in PairRows(p, ups1, ups2)
    ensures exists i, j :: 0 <= i < |ups1| && 0 <= j < |ups2| && Feasible(p, ups1[i], ups2[j]) && row == MakeRow(p, ups1[i], ups2[j])
  {
    PairRowsEnumerate(p, ups1, ups2);
    var cs := CombosFrom(p, ups1, ups2, 0);
    var k :| 0 <= k < |cs| && PairRows(p, ups1, ups2)[k] == row;
    assert cs[k] in cs;
  }

  /** Every feasible combination of a route-1 arrival and a route-2 arrival
      appears among the pair's rows. */
  lemma PairRowsComplete(p: RoutePair, ups1: seq<Entry>, ups2: seq<Entry>, e1: Entry, e2: Entry)
    requires e1 in ups1 && e2 in ups2 && Feasible(p, e1, e2)
    ensures MakeRow(p, e1, e2) in PairRows(p, ups1, ups2)
  {
    PairRowsEnumerate(p, ups1, ups2);
    var cs := CombosFrom(p, ups1, ups2, 0);
    var i :| 0 <= i < |ups1| && ups1[i] == e1;
    var j :| 0 <= j < |ups2| && ups2[j] == e2;
    assert (i, j) in cs;
    var n :| 0 <= n < |cs| && cs[n] == (i, j);
    assert PairRows(p, ups1, ups2)[n] == MakeRow(p, e1, e2);
  }

  /** The rows of one configured pair, fetched through `upcoming`. */
  function PairTable(p: RoutePair, api: map<string, seq<string>>, upcoming: Upcoming): seq<Row>
    requires p.route1 in api && p.route2 in api
  {
    PairRows(p, upcoming(p.route1, api[p.route1]), upcoming(p.route2, api[p.route2]))
  }

  predicate Configured(p: RoutePair, api: map<string, seq<string>>)
  {
    p.route1 in api && p.route2 in api
  }

  /** `route` is the key whose lookup raises first: the pairs before index
      `k` are fully configured, and at `k` route 1 is looked up before
      route 2. */
  predicate FirstMissing(pairs: seq<RoutePair>, api: map<string, seq<string>>, route: string)
  {
    exists k :: 0 <= k < |pairs|
      && (forall j :: 0 <= j < k ==> Configured(pairs[j], api))
      && ((pairs[k].route1 !in api && route == pairs[k].route1)
          || (pairs[k].route1 in api && pairs[k].route2 !in api && route == pairs[k].route2))
  }

  /** The unsorted table: the rows of every pair, in pair order. A pair
      naming a route that is not a key of `api` raises at once and no table is
      produced. */
  function CombineRows(pairs: seq<RoutePair>, api: map<string, seq<string>>, upcoming: Upcoming): (r: Result<seq<Row>, LookupError>)
    ensures r.Failure? <==> exists k :: 0 <= k < |pairs| && !Configured(pairs[k], api)
    ensures r.Failure? ==> FirstMissing(pairs, api, r.error.route)
    ensures r.Success? ==> forall row :: row in r.value ==> row.slack >= 0
  {
    if |pairs| == 0 then Success([])
    else
      var p := pairs[0];
      if p.route1 !in api then Failure(KeyError(p.route1))
      else if p.route2 !in api then Failure(KeyError(p.route2))
      else
        var rest := CombineRows(pairs[1..], api, upcoming);
        assert forall k :: 0 <= k < |pairs| - 1 ==> pairs[1..][k] == pairs[k + 1];
        match rest
        case Failure(e) =>
          assert FirstMissing(pairs[1..], api, e.route);
          var k :| 0 <= k < |pairs| - 1
            && (forall j :: 0 <= j < k ==> Configured(pairs[1..][j], api))
            && ((pairs[1..][k].route1 !in api && e.route == pairs[1..][k].route1)
                || (pairs[1..][k].route1 in api && pairs[1..][k].route2 !in api && e.route == pairs[1..][k].route2));
          assert forall j :: 0 <= j < k + 1 ==> Configured(pairs[j], api);
          Failure(e)
        case Success(rows) =>
          Success(PairTable(p, api, upcoming) + rows)
  }

  /** Pairs are independent: the table of two pair lists is the table of
      each, one after the other, and it fails exactly when either does. */
  lemma {:induction false} CombineRowsConcat(a: seq<RoutePair>, b: seq<RoutePair>, api: map<string, seq<string>>, upcoming: Upcoming)
    ensures CombineRows(a + b, api, upcoming).Success? <==>
      CombineRows(a, api, upcoming).Success? && CombineRows(b, api, upcoming).Success?
    ensures CombineRows(a + b, api, upcoming).Success? ==>
      CombineRows(a + b, api, upcoming).value == CombineRows(a, api, upcoming).value + CombineRows(b, api, upcoming).value
  {
    if |a| == 0 {
      assert a + b == b;
    } else {
      assert (a + b)[0] == a[0] && (a + b)[1..] == a[1..] + b;
      CombineRowsConcat(a[1..], b, api, upcoming);
    }
  }

  /** A configured pair contributes exactly its own rows, once each and in
      route-1 then route-2 order; with `CombineRowsConcat` this fixes the
      whole table. */
  lemma CombineRowsSingle(p: RoutePair, api: map<string, seq<string>>, upcoming: Upcoming)
    requires Configured(p, api)
    ensures CombineRows([p], api, upcoming) == Success(PairTable(p, api, upcoming))
  {
    var t := PairTable(p, api, upcoming);
    assert [p][1..] == [];
    assert CombineRows([p][1..], api, upcoming) == Success([]);
    assert t + [] == t;
  }

  /** Every row of the table belongs to the rows of some configured pair. */
  lemma {:induction false} CombineRowsFromPairs(pairs: seq<RoutePair>, api: map<string, seq<string>>, upcoming: Upcoming, row: Row)
    requires CombineRows(pairs, api, upcoming).Success?
    requires row in CombineRows(pairs, api, upcoming).value
    ensures exists k :: 0 <= k < |pairs| && Configured(pairs[k], api) && row in PairTable(pairs[k], api, upcoming)
  {
    if row !in PairTable(pairs[0], api, upcoming) {
      CombineRowsFromPairs(pairs[1..], api, upcoming, row);
      var k :| 0 <= k < |pairs| - 1 && Configured(pairs[1..][k], api) && row in PairTable(pairs[1..][k], api, upcoming);
      assert pairs[1..][k] == pairs[k + 1];
    }
  }

  /** Cross-product completeness for the whole table: when the table is
      built, every feasible combination of two fetched arrivals of any
      pair appears in it. */
  lemma CombineRowsComplete(pairs: seq<RoutePair>, api: map<string, seq<string>>, upcoming: Upcoming, k: int, e1: Entry, e2: Entry)
    requires CombineRows(pairs, api, upcoming).Success?
    requires 0 <= k < |pairs|
    requires Configured(pairs[k], api)
    requires e1 in upcoming(pairs[k].route1, api[pairs[k].route1])
    requires e2 in upcoming(pairs[k].route2, api[pairs[k].route2])
    requires Feasible(pairs[k], e1, e2)
    ensures MakeRow(pairs[k], e1, e2) in CombineRows(pairs, api, upcoming).value
  {
    var p := pairs[k];
    PairRowsComplete(p, upcoming(p.route1, api[p.route1]), upcoming(p.route2, api[p.route2]), e1, e2);
    assert pairs == pairs[..k] + pairs[k..];
    CombineRowsConcat(pairs[..k], pairs[k..], api, upcoming);
    assert pairs[k..][0] == p;
  }

  /** The table depends only on what the fetcher returns. */
  lemma {:induction false} CombineRowsCongruent(pairs: seq<RoutePair>, api: map<string, seq<string>>, f: Upcoming, g: Upcoming)
    requires forall route, urls :: f(route, urls) == g(route, urls)
    ensures CombineRows(pairs, api, f) == CombineRows(pairs, api, g)
  {
    if |pairs| > 0 {
      CombineRowsCongruent(pairs[1..], api, f, g);
    }
  }

  /** Puts the internal sort key back on a displayed row. */
  function Restore(d: DisplayRow, instant2: int): Row
  {
    Row(d.route1, d.clock1, d.minutes1, d.getOff, d.route2, d.clock2, d.minutes2, d.slack, instant2)
  }

  /** Removes the internal sort key; nothing else is lost. */
  function Strip(row: Row): (d: DisplayRow)
    ensures Restore(d, row.instant2) == row
  {
    DisplayRow(row.route1, row.clock1, row.minutes1, row.getOff, row.route2, row.clock2, row.minutes2, row.slack)
  }

  /** Strips every row, keeping count and order. */
  function StripAll(rows: seq<Row>): (ds: seq<DisplayRow>)
    ensures |ds| == |rows|
    ensures forall i :: 0 <= i < |rows| ==> Restore(ds[i], rows[i].instant2) == rows[i]
  {
    seq(|rows|, i requires 0 <= i < |rows| => Strip(rows[i]))
  }

  /** Strips a built table, passing a lookup error through unchanged. */
  function StripTable(t: Result<seq<Row>, LookupError>): (r: Result<seq<DisplayRow>, LookupError>)
    ensures r.Success? <==> t.Success?
    ensures r.Failure? ==> r.error == t.error
    ensures r.Success? ==> |r.value| == |t.value|
    ensures r.Success? ==>
      forall i :: 0 <= i < |r.value| ==> Restore(r.value[i], t.value[i].instant2) == t.value[i]
    ensures r.Success? && (forall row :: row in t.value ==> row.slack >= 0) ==>
      forall d :: d in r.value ==> d.slack >= 0
  {
    match t
    case Failure(e) => Failure(e)
    case Success(rows) => Success(StripAll(rows))
  }

  /** Rearranging rows keeps every slack non-negative. */
  lemma PermutedSlack(a: seq<Row>, b: seq<Row>)
    requires multiset(a) == multiset(b)
    requires forall row :: row in b ==> row.slack >= 0
    ensures forall row :: row in a ==> row.slack >= 0
  {
    forall row | row in a
      ensures row.slack >= 0
    {
      assert row in multiset(a);
      assert row in multiset(b);
    }
  }

  /** Products of bounded counts stay bounded. */
  lemma ProductBound(x: nat, y: nat, n: nat)
    requires x <= n && y <= n
    ensures x * y <= n * n
  {
    assert x * y <= n * y;
    assert n * y <= n * n;
  }

}

=== FILE: variants.dfy ===
/** How the two dashboard variants relate: they agree wherever the table
    uses them and differ in the two places where their code differs. */
module Variants {
  import opened Common
  import opened Sorting
  import opened Feed
  import opened Transfer
  import Dashboard
  import StaticTable

  /** The cap tests differ: `main.py` reads a cap of 0 as "no cap" and returns
      every upcoming arrival, `main-static.py` applies it and returns none. */
  lemma CapZeroDiverges(route: string, urls: seq<string>, fetch: Fetch, parse: Parser, now: int)
    ensures |Dashboard.UpcomingEtas(route, urls, fetch, parse, now, Some(0))| == |CollectEntries(route, urls, fetch, parse, now)|
    ensures StaticTable.UpcomingEtas(route, urls, fetch, parse, now, Some(0)) == []
  {
  }

  /** Without a cap, or with a non-zero one, both fetchers return the same
      list. */
  lemma FetchersAgree(route: string, urls: seq<string>, fetch: Fetch, parse: Parser, now: int, maxResults: Option<int>)
    requires maxResults != Some(0)
    ensures Dashboard.UpcomingEtas(route, urls, fetch, parse, now, maxResults)
         == StaticTable.UpcomingEtas(route, urls, fetch, parse, now, maxResults)
  {
  }

  /** Both variants build the same unsorted table, so they fail on the same
      configurations with the same error and otherwise hold the same rows;
      only the order of rows sharing a route-2 instant can differ, and both
      orders are ascending by route-2 instant. */
  lemma TablesAgreeUpToOrder(pairs: seq<RoutePair>, api: map<string, seq<string>>, fetch: Fetch, parse: Parser, now: int)
    ensures var d := Dashboard.SortedTable(pairs, api, fetch, parse, now);
      var s := StaticTable.SortedTable(pairs, api, fetch, parse, now);
      && (d.Success? <==> s.Success?)
      && (d.Failure? ==> d.error == s.error)
      && (d.Success? ==> multiset(d.value) == multiset(s.value))
      && (d.Success? ==> SortedBy(d.value, StaticTable.Instant2))
  {
    var f := Dashboard.TableFetcher(fetch, parse, now);
    var g := StaticTable.TableFetcher(fetch, parse, now);
    forall route, urls
      ensures f(route, urls) == g(route, urls)
    {
      FetchersAgree(route, urls, fetch, parse, now, Some(5));
    }
    CombineRowsCongruent(pairs, api, f, g);
    var d := Dashboard.SortedTable(pairs, api, fetch, parse, now);
    if d.Success? {
      forall i, j | 0 <= i < j < |d.value|
        ensures d.value[i].instant2 <= d.value[j].instant2
      {
        assert !Dashboard.TupleLess(d.value[j], d.value[i]);
      }
    }
  }
}
